=== FILE: README.md ===
# Smart driver hub: drowsiness alert and sign debounce, in Dafny

This project models the two decision procedures inside the main loop of the
smart driver hub (`driver_assistance_hub.py`), a single Python program that
watches a driver-facing camera for drowsiness and a road-facing camera for
traffic signs, and sends commands to the vehicle's controller.

- **Drowsiness evaluator** (module `Drowsiness`). The state is
  `sleepStart : Option<Time>` and `alerting : bool`. Each driver frame yields
  either no face or a face with an eye-aspect ratio. A ratio below
  `EAR_THR = 0.22` counts as closed eyes. The first closed-eye frame records
  when the streak began. A later closed-eye frame at least `SLEEP_T = 3.0`
  seconds after that start, while no alert is on, speaks "Wake up!", sends
  `drowsy_on` and turns the alert on. An open-eye frame ends the streak and
  sends `drowsy_off` if the alert was on. A frame without a face changes
  nothing.
- **Sign evaluator** (module `Signs`). The state is the last announced label
  and its time, initially `""` and `0`. The detections of a road frame are
  handled in order against that one state. A detection is announced when its
  label differs from the last one, or when more than `SPEAK_DELAY = 3`
  seconds have passed since then. An announced label is spoken. Its command
  is then chosen from the lower-cased label: the first of "stop", "30", "50"
  and "80" that occurs in it gives `sign_stop`, `sign_speed30`,
  `sign_speed50` or `sign_speed80`. A label with none of them sends nothing.
- **Command vocabulary** (module `HubTypes`): the six commands and the
  request paths they are sent to.
- **Main-loop tick** (module `Hub`): one loop iteration runs the drowsiness
  evaluator on the driver frame, if there is one, and then the sign
  evaluator on the road frame, if there is one.

Every step is a pure function from a state and one input to a `Step`, which
holds the next state and the list of emitted events. An event is either
`Announce(text)` (a spoken announcement) or `Dispatch(cmd)` (a command sent
to the controller). Time is a `real` parameter. The eye-aspect ratio is an
input value, not computed from landmarks. Each detection carries the time
it was handled at, because the program reads the clock once per detection
(line 163). `Signs.SignTick` is the special case where one time serves a
whole frame. The drowsiness step reads the clock on two lines (139 and 140),
but these are exclusive branches of one `if`, so one `now` per tick is exact.

Two consequences of the code are worth spelling out:
- The sign state starts as the empty label at time `0` (lines 124-125), so
  a detection with an empty label at a time of at most 3 is not announced.
- Because line 164 uses a strict `>`, a label seen once a second is
  announced at seconds 0, 4 and 8 (`Signs.RepeatedLabelScenario`).

## Model

| member | source | states |
|---|---|---|
| Drowsiness.DrowsyStep | Advanced-Driver-Awareness-And-Safety-System/driver_assistance_hub.py:134-150 | A tick without a face changes nothing and emits nothing. The first closed-eye tick records `now` as the streak start, keeps the alert flag and emits nothing. "Wake up!" and `drowsy_on` are emitted iff the eyes are closed, a streak start is set, `now - start >= 3.0` and no alert is on; the alert is then on. Closed eyes while alerting, or before the streak has lasted 3.0, change nothing and emit nothing. Open eyes clear the start and the alert, and emit exactly `drowsy_off` if an alert was on and nothing otherwise. Events are emitted exactly when the alert flag flips. The step preserves `alerting ⇒ sleepStart set`. |
| Drowsiness.DrowsyRun | Advanced-Driver-Awareness-And-Safety-System/driver_assistance_hub.py:122-150 | From the initial state (no start, no alert) and over any sequence of ticks, the invariant `alerting ⇒ sleepStart set` holds after every run that starts in a state satisfying it. |
| Drowsiness.StepCommands | Advanced-Driver-Awareness-And-Safety-System/driver_assistance_hub.py:142-150 | A step sends `drowsy_on` alone when it switches the alert on, `drowsy_off` alone when it switches it off, and no drowsiness command otherwise. |
| Drowsiness.RunAlternates | Advanced-Driver-Awareness-And-Safety-System/driver_assistance_hub.py:142-150 | Over any run, `drowsy_on` and `drowsy_off` strictly alternate, starting with the one that switches the initial alert flag. The final flag is the initial one flipped once per command sent. |
| Drowsiness.AtMostOneAlertPerEpisode | Advanced-Driver-Awareness-And-Safety-System/driver_assistance_hub.py:134-145 | Over ticks with closed eyes or no face, at most one `drowsy_on` is sent and no `drowsy_off`. None is sent if an alert is already on, and an alert that is on stays on. |
| Drowsiness.ClosedStreakAlertsOnce | Advanced-Driver-Awareness-And-Safety-System/driver_assistance_hub.py:137-145 | A closed-eye streak started while awake sends `drowsy_on` exactly once if some later tick of the streak is at least 3.0 after its first tick. Otherwise it sends nothing. |
| Drowsiness.NoFaceTicksIgnored | Advanced-Driver-Awareness-And-Safety-System/driver_assistance_hub.py:134 | Ticks without a face neither end nor reset a streak: a run equals the run over only the ticks that saw a face, in state and in events. |
| Drowsiness.RunJustified | Advanced-Driver-Awareness-And-Safety-System/driver_assistance_hub.py:137-145 | With non-decreasing timestamps, an alert that is on always belongs to a streak that began at least 3.0 before the latest tick, and a recorded streak start is never in the future. |
| Drowsiness.OpenStreakEndsAlert | Advanced-Driver-Awareness-And-Safety-System/driver_assistance_hub.py:146-150 | A run of open-eye ticks leaves the state awake (no start, no alert). It sends `drowsy_off` once if an alert was on, and nothing otherwise. |
| Drowsiness.EpisodeAlertsOnceAndClears | Advanced-Driver-Awareness-And-Safety-System/driver_assistance_hub.py:134-150 | Open eyes, then a closed streak lasting 3.0, then open eyes: exactly one `drowsy_on` then one `drowsy_off`. This follows a `drowsy_off` for an alert that was already on at the start. |
| Drowsiness.DrowsyScenario | Advanced-Driver-Awareness-And-Safety-System/driver_assistance_hub.py:137-150 | Ratios 0.30 for 5 s, 0.15 for 31 s and 0.30 for 2 s, one frame a second from the start state: the commands sent are exactly `drowsy_on`, `drowsy_off`. Cut after each frame, no command has been sent through the frame at second 7, `drowsy_on` alone through the frames at seconds 8 to 35 (it is sent on the frame at second 8, three seconds into the streak that began at second 5), and `drowsy_on`, `drowsy_off` from the frame at second 36 on, when the eyes open. |
| Drowsiness.ScenarioPrefix | Advanced-Driver-Awareness-And-Safety-System/driver_assistance_hub.py:137-150 | For every cut `n` of the same scenario, the commands of its first `n` frames: none for `n <= 8`, `drowsy_on` for `9 <= n <= 36`, `drowsy_on`, `drowsy_off` after that. |
| Text.Lower | Advanced-Driver-Awareness-And-Safety-System/driver_assistance_hub.py:167 | Lower-casing keeps the length, maps each capital A-Z to its small letter and leaves every other character unchanged. |
| Text.Contains | Advanced-Driver-Awareness-And-Safety-System/driver_assistance_hub.py:168-171 | The scan for `pat in s` returns true iff `pat` occurs in `s` at some index. |
| Signs.CommandFor | Advanced-Driver-Awareness-And-Safety-System/driver_assistance_hub.py:167-171 | `sign_stop` iff the lower-cased label contains "stop". `sign_speed30` iff it contains "30" but not "stop"; `sign_speed50` and `sign_speed80` likewise down the chain. No command iff none of the four occurs. Only sign commands result. |
| Signs.CommandForIgnoresCase | Advanced-Driver-Awareness-And-Safety-System/driver_assistance_hub.py:167 | Labels that differ only in letter case map to the same command. |
| Signs.UpperCaseStopExample | Advanced-Driver-Awareness-And-Safety-System/driver_assistance_hub.py:167-168 | "STOP_SIGN" maps to `sign_stop`: the label is lower-cased before the test. |
| Signs.StopBeforeDigitsExample | Advanced-Driver-Awareness-And-Safety-System/driver_assistance_hub.py:168-169 | "stop25" and "stop30" map to `sign_stop`, since "stop" is tested before "30". |
| Signs.SpeedSignExample | Advanced-Driver-Awareness-And-Safety-System/driver_assistance_hub.py:169 | "speed30" maps to `sign_speed30`. |
| Signs.UnknownSignExample | Advanced-Driver-Awareness-And-Safety-System/driver_assistance_hub.py:165-171 | "yield" maps to no command, but is still spoken. |
| Signs.AnnouncementEvents | Advanced-Driver-Awareness-And-Safety-System/driver_assistance_hub.py:165-171 | Announcing a label speaks it first. A second event, the label's sign command, follows iff the label maps to one. |
| Signs.SignStep | Advanced-Driver-Awareness-And-Safety-System/driver_assistance_hub.py:163-171 | An announced detection becomes the state `(label, now)` and emits its announcement events. A detection emits nothing iff it repeats the last label within 3 seconds (strict `>` to re-announce); the state then stays unchanged. |
| Signs.SignFold | Advanced-Driver-Awareness-And-Safety-System/driver_assistance_hub.py:157-166 | Handling no detections changes nothing and emits nothing. What a run of detections does is carried by its partner lemmas: `Signs.FoldFollowsLog` (the events and final state are those of the announced detections, in order), `Signs.FoldAppend` (runs compose) and `Signs.FoldRemembersLast`. |
| Signs.SignTick | Advanced-Driver-Awareness-And-Safety-System/driver_assistance_hub.py:157-166 | After the detections of a frame are handled in order, the state holds the label of the frame's last detection. A frame without detections changes nothing. |
| Signs.FoldRemembersLast | Advanced-Driver-Awareness-And-Safety-System/driver_assistance_hub.py:164-166 | After any non-empty run of detections, the state holds the last detection's label, at a time no more than 3 before that detection. |
| Signs.LabelChangeIsAnnounced | Advanced-Driver-Awareness-And-Safety-System/driver_assistance_hub.py:164 | A detection whose label differs from the detection just before it is always announced, however little time has passed. So labels that take turns within one frame override each other's debounce. |
| Signs.SameFrameRepeatIsSuppressed | Advanced-Driver-Awareness-And-Safety-System/driver_assistance_hub.py:163-164 | A detection that repeats the previous detection's label at the same time is never announced. |
| Signs.FoldFollowsLog | Advanced-Driver-Awareness-And-Safety-System/driver_assistance_hub.py:157-166 | Folding detections emits exactly the announcement events of the announced detections, in order. It leaves the last announced detection (or the start state) as its state. |
| Signs.RepeatsAreSpaced | Advanced-Driver-Awareness-And-Safety-System/driver_assistance_hub.py:164-166 | In the log of announcements, each one satisfies the debounce rule against the previous announcement. So two consecutive announcements of the same label are more than 3 seconds apart. |
| Signs.RepeatedLabelScenario | Advanced-Driver-Awareness-And-Safety-System/driver_assistance_hub.py:124-166 | A non-empty label seen once a second at 0..10 from the start state is announced at 0, 4 and 8 only. |
| Signs.FoldAppend | Advanced-Driver-Awareness-And-Safety-System/driver_assistance_hub.py:157-166 | Handling two runs of detections one after the other is the same as handling their concatenation, in state and in events. |
| HubTypes.RequestPath | Advanced-Driver-Awareness-And-Safety-System/driver_assistance_hub.py:38 | A command's request path is `/` followed by the command's name, one character longer than the name. |
| HubTypes.RequestPathInjective | Advanced-Driver-Awareness-And-Safety-System/driver_assistance_hub.py:36-49 | The six commands are sent to six distinct paths `/<name>`, so the controller can tell them apart. |
| Hub.HubTick | Advanced-Driver-Awareness-And-Safety-System/driver_assistance_hub.py:128-172 | A present driver frame advances the drowsiness state by one step and a present road frame advances the sign state by a fold over its detections. A missing driver frame leaves the drowsiness state unchanged, and a missing road frame leaves the sign state unchanged. The events are the driver step's followed by the road fold's. The drowsiness invariant is preserved. |
| Hub.EvaluatorsIndependent | Advanced-Driver-Awareness-And-Safety-System/driver_assistance_hub.py:129-171 | The sign state after a tick does not depend on the drowsiness state or the driver frame, and vice versa. |
| Hub.SignsSendNoDrowsyCommands | Advanced-Driver-Awareness-And-Safety-System/driver_assistance_hub.py:157-171 | The sign evaluator never sends `drowsy_on` or `drowsy_off`. |
| Hub.TickDrowsyCommands | Advanced-Driver-Awareness-And-Safety-System/driver_assistance_hub.py:129-171 | The drowsiness commands of a tick are exactly those of its driver frame's step. |
| Hub.HubRun | Advanced-Driver-Awareness-And-Safety-System/driver_assistance_hub.py:128-176 | A run of no iterations changes nothing and emits nothing, and every run preserves the drowsiness invariant `alerting ⇒ sleepStart set`. Its content is carried by `Hub.HubRunProjects`, which reduces a run to the two evaluators run on their own. |
| Hub.HubRunProjects | Advanced-Driver-Awareness-And-Safety-System/driver_assistance_hub.py:128-172 | Over any run of the main loop, the drowsiness state is that of the drowsiness evaluator run over the driver frames that were present, and the sign state is that of the sign evaluator folded over the detections of the road frames that were present. The drowsiness commands sent are exactly those of that drowsiness run. |
| Hub.HubAlternates | Advanced-Driver-Awareness-And-Safety-System/driver_assistance_hub.py:122-172 | Over any run of the main loop from the start, `drowsy_on` and `drowsy_off` strictly alternate, beginning with `drowsy_on`. |

## Left out

- The eye-aspect-ratio computation `ear` (lines 79-82), with its pixel truncation and square roots: the ratio is an input to the model. When the two eye corners truncate to the same pixel, `ear` divides by zero (line 82), and the uncaught ZeroDivisionError ends the main loop, whose `try` handles only KeyboardInterrupt (line 178), so an alert that is on never gets its `drowsy_off`. The model assumes every face yields a ratio and that the loop runs on.
- Face-mesh and object-detector inference, frame resizing and colour conversion: the detector's confidence filter (`conf=0.5`) is taken as already applied, so the model sees only the detections that pass it.
- The capture threads and the shared frame slots `d_frame` / `t_frame` (lines 89-113): camera I/O and unsynchronised sharing between threads. A missing frame is the `None` input of `Hub.HubTick`.
- The `/alert` web handler, the SMS client and `run_flask` (lines 52-70): network I/O and a foreign messaging service.
- The speech engine `speak` and the daemon threads that call it: only the `Announce` event is kept. Speech runs on a daemon thread (lines 143 and 165) while a command request blocks the evaluator's loop until it completes or a connect or read wait exceeds 0.6 seconds (line 38); the model keeps only the order in which they are issued, and the time spent waiting shows up only as a later `now` on the next detection or tick.
- The HTTP transport of `send_to_esp` (lines 36-41), with its 0.6 s timeout and error logging: only the command and its path are kept.
- On-screen drawing, windows and the Esc-key exit (lines 141, 151, 160-162, 172-181): user interface only.
- Text.Lower: lower-cases only ASCII capitals A-Z. Python's `str.lower` also folds non-ASCII letters, which this model does not cover.
- Time is an exact `real`. Floating-point rounding of `time.time()` differences is not modelled.

=== FILE: drowsiness.dfy ===
/** The drowsiness evaluator: a two-field state machine advanced once per
    driver frame by the eye-aspect ratio of that frame (or by the absence of
    a face), which raises `drowsy_on` with a spoken "Wake up!" once the eyes
    have stayed closed for SLEEP_T seconds and `drowsy_off` when they open. */
module Drowsiness {
  import opened HubTypes

  /** Eye-aspect ratio below which the eyes count as closed. */
  const EAR_THR: real := 0.22
  /** Seconds of closed eyes after which the driver is alerted. */
  const SLEEP_T: real := 3.0
  const WAKE_UP: string := "Wake up!"

  /** What the face-landmark extractor reports for one frame: no face, or a
      face whose two eyes average to the given eye-aspect ratio. */
  datatype Observation = NoFace | Face(ratio: real)

  predicate EyesClosed(o: Observation) {
    o.Face? && o.ratio < EAR_THR
  }

  predicate EyesOpen(o: Observation) {
    o.Face? && o.ratio >= EAR_THR
  }

  /** One evaluated driver frame and the time it was evaluated at. */
  datatype DriverTick = DriverTick(obs: Observation, at: Time)

  /** `sleepStart` is the time the current closed-eye streak began;
      `alerting` is true between a `drowsy_on` and the next `drowsy_off`. */
  datatype DrowsyState = DrowsyState(sleepStart: Option<Time>, alerting: bool)

  const Initial: DrowsyState := DrowsyState(None, false)

  /** The state invariant: the driver is only alerted during a closed-eye
      streak. */
  predicate Inv(s: DrowsyState) {
    s.alerting ==> s.sleepStart.Some?
  }

  /** The drowsiness commands among a list of events, in order. */
  function DrowsyCommands(es: seq<Event>): (cs: seq<Command>)
    ensures forall k :: 0 <= k < |cs| ==> cs[k] == DrowsyOn || cs[k] == DrowsyOff
    ensures |cs| <= |es|
    decreases |es|
  {
    if |es| == 0 then []
    else
      var head := if es[0].Dispatch? && !es[0].cmd.IsSign() then [es[0].cmd] else [];
      head + DrowsyCommands(es[1..])
  }

  lemma {:induction false} DrowsyCommandsAppend(a: seq<Event>, b: seq<Event>)
    ensures DrowsyCommands(a + b) == DrowsyCommands(a) + DrowsyCommands(b)
    decreases |a|
  {
    if |a| > 0 {
      assert (a + b)[1..] == a[1..] + b;
      DrowsyCommandsAppend(a[1..], b);
    } else {
      assert a + b == b;
    }
  }

  /** One tick of the evaluator: the observation of one driver frame taken
      at time `now`. */
  function DrowsyStep(s: DrowsyState, obs: Observation, now: Time): (r: Step<DrowsyState>)
    // no face: nothing changes and nothing is emitted
    ensures obs.NoFace? ==> r == Step(s, [])
    // the first closed-eye tick of a streak only records when it began
    ensures EyesClosed(obs) && s.sleepStart.None? ==> r == Step(DrowsyState(Some(now), s.alerting), [])
    // drowsy_on exactly when the streak has lasted SLEEP_T and no alert is on
    ensures Dispatch(DrowsyOn) in r.events <==>
              EyesClosed(obs) && s.sleepStart.Some? && now - s.sleepStart.value >= SLEEP_T && !s.alerting
    ensures Dispatch(DrowsyOn) in r.events ==>
              r.events == [Announce(WAKE_UP), Dispatch(DrowsyOn)] && r.next == DrowsyState(s.sleepStart, true)
    // once alerting, closed eyes emit nothing more
    ensures EyesClosed(obs) && s.alerting && s.sleepStart.Some? ==> r == Step(s, [])
    // a streak shorter than SLEEP_T changes nothing
    ensures EyesClosed(obs) && s.sleepStart.Some? && now - s.sleepStart.value < SLEEP_T ==> r == Step(s, [])
    // open eyes end the streak and the alert, emitting drowsy_off iff an alert was on
    ensures EyesOpen(obs) ==> r.next == DrowsyState(None, false)
    ensures EyesOpen(obs) ==> (Dispatch(DrowsyOff) in r.events <==> s.alerting)
    ensures EyesOpen(obs) ==> r.events == if s.alerting then [Dispatch(DrowsyOff)] else []
    // an event is emitted exactly when the alert is switched on or off
    ensures r.events != [] <==> r.next.alerting != s.alerting
    ensures Inv(s) ==> Inv(r.next)
  {
    match obs
    case NoFace => Step(s, [])
    case Face(ratio) =>
      if ratio < EAR_THR then
        match s.sleepStart
        case None => Step(DrowsyState(Some(now), s.alerting), [])
        case Some(start) =>
          if now - start >= SLEEP_T && !s.alerting then
            Step(DrowsyState(s.sleepStart, true), [Announce(WAKE_UP), Dispatch(DrowsyOn)])
          else
            Step(s, [])
      else
        Step(DrowsyState(None, false), if s.alerting then [Dispatch(DrowsyOff)] else [])
  }

  /** The only drowsiness commands of a step are the one that switches
      the alert on and the one that switches it off. */
  lemma {:induction false} StepCommands(s: DrowsyState, obs: Observation, now: Time)
    ensures var r := DrowsyStep(s, obs, now);
            DrowsyCommands(r.events) ==
              if r.next.alerting == s.alerting then [] else if s.alerting then [DrowsyOff] else [DrowsyOn]
  {
    var r := DrowsyStep(s, obs, now);
    if r.next.alerting != s.alerting {
      if s.alerting {
        assert r.events == [Dispatch(DrowsyOff)];
        assert r.events[1..] == [];
      } else {
        assert r.events == [Announce(WAKE_UP), Dispatch(DrowsyOn)];
        assert r.events[1..][1..] == [];
      }
    }
  }

  /** The evaluator run over a sequence of ticks, in order. */
  function DrowsyRun(s: DrowsyState, ticks: seq<DriverTick>): (r: Step<DrowsyState>)
    ensures Inv(s) ==> Inv(r.next)
    ensures |ticks| == 0 ==> r == Step(s, [])
    decreases |ticks|
  {
    if |ticks| == 0 then Step(s, [])
    else
      var first := DrowsyStep(s, ticks[0].obs, ticks[0].at);
      var rest := DrowsyRun(first.next, ticks[1..]);
      Step(rest.next, first.events + rest.events)
  }

  // ---------------------------------------------------------------------
  // Episode-level properties

  /** `cs` alternates drowsy_on / drowsy_off, starting with the command that
      switches an alert in state `alerting`. */
  predicate Alternating(cs: seq<Command>, alerting: bool)
    decreases |cs|
  {
    |cs| == 0 || (cs[0] == (if alerting then DrowsyOff else DrowsyOn) && Alternating(cs[1..], !alerting))
  }

  lemma {:induction false} AlternatingAppend(a: seq<Command>, b: seq<Command>, alerting: bool)
    requires Alternating(a, alerting)
    requires Alternating(b, alerting != (|a| % 2 == 1))
    ensures Alternating(a + b, alerting)
    decreases |a|
  {
    if |a| == 0 {
      assert a + b == b;
    } else {
      assert (a + b)[1..] == a[1..] + b;
      AlternatingAppend(a[1..], b, !alerting);
    }
  }

  /** Two alternating command lists, the second starting where the first
      leaves the alert flag, make one alternating list. */
  lemma {:induction false} AlternationComposes(a: seq<Command>, b: seq<Command>, x: bool, y: bool, z: bool)
    requires |a| <= 1
    requires Alternating(a, x) && y == (x != (|a| % 2 == 1))
    requires Alternating(b, y) && z == (y != (|b| % 2 == 1))
    ensures Alternating(a + b, x) && z == (x != (|a + b| % 2 == 1))
  {
    AlternatingAppend(a, b, x);
    if |a| == 0 {
      assert a + b == b;
    }
  }

  lemma {:induction false} StepAlternates(s: DrowsyState, obs: Observation, now: Time)
    ensures var r := DrowsyStep(s, obs, now);
            |DrowsyCommands(r.events)| <= 1 &&
            Alternating(DrowsyCommands(r.events), s.alerting) &&
            r.next.alerting == (s.alerting != (|DrowsyCommands(r.events)| % 2 == 1))
  {
    StepCommands(s, obs, now);
    var r := DrowsyStep(s, obs, now);
    if r.next.alerting != s.alerting {
      assert DrowsyCommands(r.events)[1..] == [];
    }
  }

  /** Over any run, drowsy_on and drowsy_off strictly alternate: never two
      drowsy_on without a drowsy_off between them and vice versa. The final
      alert flag is the initial one flipped once per command. */
  lemma {:induction false} RunAlternates(s: DrowsyState, ticks: seq<DriverTick>)
    ensures Alternating(DrowsyCommands(DrowsyRun(s, ticks).events), s.alerting)
    ensures DrowsyRun(s, ticks).next.alerting ==
              (s.alerting != (|DrowsyCommands(DrowsyRun(s, ticks).events)| % 2 == 1))
    decreases |ticks|
  {
    if |ticks| > 0 {
      var first := DrowsyStep(s, ticks[0].obs, ticks[0].at);
      var rest := DrowsyRun(first.next, ticks[1..]);
      assert DrowsyRun(s, ticks) == Step(rest.next, first.events + rest.events);
      StepAlternates(s, ticks[0].obs, ticks[0].at);
      RunAlternates(first.next, ticks[1..]);
      DrowsyCommandsAppend(first.events, rest.events);
      var a, b := DrowsyCommands(first.events), DrowsyCommands(rest.events);
      AlternationComposes(a, b, s.alerting, first.next.alerting, rest.next.alerting);
    }
  }

  predicate NoOpenEyes(ticks: seq<DriverTick>) {
    forall i :: 0 <= i < |ticks| ==> !EyesOpen(ticks[i].obs)
  }

  /** Within one closed-eye episode (ticks with closed eyes or no face at
      all), at most one drowsy_on is sent, none if the alert is already on,
      and no drowsy_off. */
  lemma {:induction false} AtMostOneAlertPerEpisode(s: DrowsyState, ticks: seq<DriverTick>)
    requires NoOpenEyes(ticks)
    ensures var cs := DrowsyCommands(DrowsyRun(s, ticks).events);
            (cs == [] || cs == [DrowsyOn]) && (s.alerting ==> cs == [])
    ensures s.alerting ==> DrowsyRun(s, ticks).next.alerting
    decreases |ticks|
  {
    if |ticks| > 0 {
      var first := DrowsyStep(s, ticks[0].obs, ticks[0].at);
      var rest := DrowsyRun(first.next, ticks[1..]);
      assert !EyesOpen(ticks[0].obs);
      StepCommands(s, ticks[0].obs, ticks[0].at);
      AtMostOneAlertPerEpisode(first.next, ticks[1..]);
      DrowsyCommandsAppend(first.events, rest.events);
    }
  }

  predicate AllClosed(ticks: seq<DriverTick>) {
    forall i :: 0 <= i < |ticks| ==> EyesClosed(ticks[i].obs)
  }

  /** Some tick comes SLEEP_T or more after `start`. */
  predicate ReachesSleep(start: Time, ticks: seq<DriverTick>) {
    exists j :: 0 <= j < |ticks| && ticks[j].at - start >= SLEEP_T
  }

  lemma {:induction false} ReachesSleepTail(start: Time, ticks: seq<DriverTick>)
    requires |ticks| > 0
    ensures ReachesSleep(start, ticks) <==> ticks[0].at - start >= SLEEP_T || ReachesSleep(start, ticks[1..])
  {
    if ReachesSleep(start, ticks) && ticks[0].at - start < SLEEP_T {
      var j :| 0 <= j < |ticks| && ticks[j].at - start >= SLEEP_T;
      assert ticks[1..][j - 1] == ticks[j];
    }
    if ReachesSleep(start, ticks[1..]) {
      var j :| 0 <= j < |ticks[1..]| && ticks[1..][j].at - start >= SLEEP_T;
      assert ticks[j + 1] == ticks[1..][j];
    }
  }

  lemma {:induction false} ClosedStreakFrom(start: Time, ticks: seq<DriverTick>)
    requires AllClosed(ticks)
    ensures DrowsyCommands(DrowsyRun(DrowsyState(Some(start), false), ticks).events) ==
              if ReachesSleep(start, ticks) then [DrowsyOn] else []
    decreases |ticks|
  {
    if |ticks| > 0 {
      var s := DrowsyState(Some(start), false);
      var first := DrowsyStep(s, ticks[0].obs, ticks[0].at);
      var rest := DrowsyRun(first.next, ticks[1..]);
      DrowsyCommandsAppend(first.events, rest.events);
      StepCommands(s, ticks[0].obs, ticks[0].at);
      ReachesSleepTail(start, ticks);
      if ticks[0].at - start >= SLEEP_T {
        assert first.next.alerting;
        assert NoOpenEyes(ticks[1..]);
        AtMostOneAlertPerEpisode(first.next, ticks[1..]);
      } else {
        assert first == Step(s, []);
        ClosedStreakFrom(start, ticks[1..]);
      }
    }
  }

  /** A closed-eye streak that starts while the driver is awake sends
      drowsy_on exactly once if some later tick of it comes SLEEP_T or more
      after its first tick, and never otherwise. */
  lemma {:induction false} ClosedStreakAlertsOnce(s: DrowsyState, ticks: seq<DriverTick>)
    requires s.sleepStart.None? && !s.alerting
    requires |ticks| > 0 && AllClosed(ticks)
    ensures DrowsyCommands(DrowsyRun(s, ticks).events) ==
              if exists i :: 1 <= i < |ticks| && ticks[i].at - ticks[0].at >= SLEEP_T then [DrowsyOn] else []
  {
    var first := DrowsyStep(s, ticks[0].obs, ticks[0].at);
    var rest := DrowsyRun(first.next, ticks[1..]);
    assert first == Step(DrowsyState(Some(ticks[0].at), false), []);
    assert DrowsyRun(s, ticks).events == rest.events;
    ClosedStreakFrom(ticks[0].at, ticks[1..]);
    assert (exists i :: 1 <= i < |ticks| && ticks[i].at - ticks[0].at >= SLEEP_T) <==>
           ReachesSleep(ticks[0].at, ticks[1..]) by {
      if exists i :: 1 <= i < |ticks| && ticks[i].at - ticks[0].at >= SLEEP_T {
        var i :| 1 <= i < |ticks| && ticks[i].at - ticks[0].at >= SLEEP_T;
        assert ticks[1..][i - 1] == ticks[i];
      }
      if ReachesSleep(ticks[0].at, ticks[1..]) {
        var j :| 0 <= j < |ticks[1..]| && ticks[1..][j].at - ticks[0].at >= SLEEP_T;
        assert ticks[j + 1] == ticks[1..][j];
      }
    }
  }

  /** The ticks in which a face was seen. */
  function Faces(ticks: seq<DriverTick>): (fs: seq<DriverTick>)
    ensures forall k :: 0 <= k < |fs| ==> fs[k].obs.Face?
    ensures |fs| <= |ticks|
    decreases |ticks|
  {
    if |ticks| == 0 then []
    else if ticks[0].obs.NoFace? then Faces(ticks[1..])
    else [ticks[0]] + Faces(ticks[1..])
  }

  /** Frames without a face neither end nor reset a closed-eye streak nor
      emit anything: a run equals the run over the frames with a face. */
  lemma {:induction false} NoFaceTicksIgnored(s: DrowsyState, ticks: seq<DriverTick>)
    ensures DrowsyRun(s, ticks) == DrowsyRun(s, Faces(ticks))
    decreases |ticks|
  {
    if |ticks| > 0 {
      NoFaceTicksIgnored(DrowsyStep(s, ticks[0].obs, ticks[0].at).next, ticks[1..]);
      if ticks[0].obs.NoFace? {
        NoFaceTicksIgnored(s, ticks[1..]);
        assert DrowsyRun(s, ticks).events == [] + DrowsyRun(s, ticks[1..]).events;
      } else {
        var fs := [ticks[0]] + Faces(ticks[1..]);
        assert fs[0] == ticks[0] && fs[1..] == Faces(ticks[1..]);
      }
    }
  }

  // ---------------------------------------------------------------------
  // With non-decreasing timestamps an alert is always justified.

  /** At time `t`: a recorded streak start lies in the past, and an alert
      is on only for a streak that has lasted SLEEP_T. */
  predicate Justified(s: DrowsyState, t: Time) {
    && (s.sleepStart.Some? ==> s.sleepStart.value <= t)
    && (s.alerting ==> s.sleepStart.Some? && t - s.sleepStart.value >= SLEEP_T)
  }

  predicate NonDecreasing(ticks: seq<DriverTick>) {
    forall i, j :: 0 <= i < j < |ticks| ==> ticks[i].at <= ticks[j].at
  }

  lemma {:induction false} RunJustified(s: DrowsyState, t: Time, ticks: seq<DriverTick>)
    requires Justified(s, t)
    requires NonDecreasing(ticks)
    requires |ticks| > 0 ==> t <= ticks[0].at
    ensures Justified(DrowsyRun(s, ticks).next, if |ticks| == 0 then t else ticks[|ticks| - 1].at)
    decreases |ticks|
  {
    if |ticks| > 0 {
      var first := DrowsyStep(s, ticks[0].obs, ticks[0].at);
      assert Justified(first.next, ticks[0].at);
      RunJustified(first.next, ticks[0].at, ticks[1..]);
    }
  }

  // ---------------------------------------------------------------------
  // Composition and a worked scenario

  lemma {:induction false} RunAppend(s: DrowsyState, a: seq<DriverTick>, b: seq<DriverTick>)
    ensures var ra := DrowsyRun(s, a);
            var rb := DrowsyRun(ra.next, b);
            DrowsyRun(s, a + b) == Step(rb.next, ra.events + rb.events)
    decreases |a|
  {
    if |a| == 0 {
      assert a + b == b;
    } else {
      var ab := a + b;
      assert ab[0] == a[0] && ab[1..] == a[1..] + b;
      var first := DrowsyStep(s, a[0].obs, a[0].at);
      RunAppend(first.next, a[1..], b);
      var ra' := DrowsyRun(first.next, a[1..]);
      var rb := DrowsyRun(ra'.next, b);
      assert DrowsyRun(first.next, ab[1..]) == Step(rb.next, ra'.events + rb.events);
      assert DrowsyRun(s, a) == Step(ra'.next, first.events + ra'.events);
      assert |ab| > 0;
      assert DrowsyStep(s, ab[0].obs, ab[0].at) == first;
      assert DrowsyRun(s, ab) == Step(DrowsyRun(first.next, ab[1..]).next, first.events + DrowsyRun(first.next, ab[1..]).events);
      assert first.events + (ra'.events + rb.events) == (first.events + ra'.events) + rb.events;
    }
  }

  /** The drowsiness commands of a run split at any point. */
  lemma {:induction false} RunCommandsAppend(s: DrowsyState, a: seq<DriverTick>, b: seq<DriverTick>)
    ensures var ra := DrowsyRun(s, a);
            var rb := DrowsyRun(ra.next, b);
            && DrowsyRun(s, a + b).next == rb.next
            && DrowsyCommands(DrowsyRun(s, a + b).events) == DrowsyCommands(ra.events) + DrowsyCommands(rb.events)
  {
    RunAppend(s, a, b);
    var ra := DrowsyRun(s, a);
    DrowsyCommandsAppend(ra.events, DrowsyRun(ra.next, b).events);
  }

  predicate AllOpen(ticks: seq<DriverTick>) {
    forall i :: 0 <= i < |ticks| ==> EyesOpen(ticks[i].obs)
  }

  /** Open eyes end any streak: the state becomes awake, and drowsy_off is
      sent once if an alert was on and never otherwise. */
  lemma {:induction false} OpenStreakEndsAlert(s: DrowsyState, ticks: seq<DriverTick>)
    requires |ticks| > 0 && AllOpen(ticks)
    ensures DrowsyRun(s, ticks).next == DrowsyState(None, false)
    ensures DrowsyCommands(DrowsyRun(s, ticks).events) == if s.alerting then [DrowsyOff] else []
    decreases |ticks|
  {
    var first := DrowsyStep(s, ticks[0].obs, ticks[0].at);
    var rest := DrowsyRun(first.next, ticks[1..]);
    DrowsyCommandsAppend(first.events, rest.events);
    StepCommands(s, ticks[0].obs, ticks[0].at);
    if |ticks| > 1 {
      OpenStreakEndsAlert(first.next, ticks[1..]);
    }
  }

  lemma {:induction false} AlertOnAfterDrowsyOn(s: DrowsyState, ticks: seq<DriverTick>)
    requires !s.alerting
    requires DrowsyCommands(DrowsyRun(s, ticks).events) == [DrowsyOn]
    ensures DrowsyRun(s, ticks).next.alerting
  {
    RunAlternates(s, ticks);
  }

  /** A closed streak that reaches SLEEP_T, started while awake, followed
      by open eyes: one drowsy_on, then one drowsy_off. */
  lemma {:induction false} ClosedThenOpen(s: DrowsyState, closed: seq<DriverTick>, woken: seq<DriverTick>)
    requires s.sleepStart.None? && !s.alerting
    requires |closed| > 0 && AllClosed(closed)
    requires exists i :: 1 <= i < |closed| && closed[i].at - closed[0].at >= SLEEP_T
    requires |woken| > 0 && AllOpen(woken)
    ensures DrowsyCommands(DrowsyRun(s, closed + woken).events) == [DrowsyOn, DrowsyOff]
  {
    ClosedStreakAlertsOnce(s, closed);
    AlertOnAfterDrowsyOn(s, closed);
    OpenStreakEndsAlert(DrowsyRun(s, closed).next, woken);
    RunCommandsAppend(s, closed, woken);
  }

  /** A whole episode: eyes open, then a closed streak in which some tick
      comes SLEEP_T or more after its first one, then eyes open again. The
      episode sends exactly one drowsy_on and then one drowsy_off (after a
      drowsy_off for an alert that was already on at the start). */
  lemma {:induction false} EpisodeAlertsOnceAndClears(s: DrowsyState, awake: seq<DriverTick>,
                                   closed: seq<DriverTick>, woken: seq<DriverTick>)
    requires |awake| > 0 && AllOpen(awake)
    requires |closed| > 0 && AllClosed(closed)
    requires exists i :: 1 <= i < |closed| && closed[i].at - closed[0].at >= SLEEP_T
    requires |woken| > 0 && AllOpen(woken)
    ensures DrowsyCommands(DrowsyRun(s, awake + closed + woken).events) ==
              (if s.alerting then [DrowsyOff] else []) + [DrowsyOn, DrowsyOff]
  {
    OpenStreakEndsAlert(s, awake);
    ClosedThenOpen(DrowsyRun(s, awake).next, closed, woken);
    assert awake + closed + woken == awake + (closed + woken);
    RunCommandsAppend(s, awake, closed + woken);
  }

  /** Ratios 0.30 for five seconds, 0.15 for 31 seconds, then 0.30 for two
      seconds, one frame a second. */
  const Scenario: seq<DriverTick> :=
    seq(38, i requires 0 <= i < 38 => DriverTick(if 5 <= i < 36 then Face(0.15) else Face(0.30), i as real))

  /** The commands sent over the first `n` frames of the scenario, from the
      start state: none up to the frame at second 7, drowsy_on on the frame
      at second 8 (three seconds into the streak that began at second 5),
      nothing more while the eyes stay closed, and drowsy_off on the frame at
      second 36, when they open. */
  lemma {:induction false} ScenarioPrefix(n: nat)
    requires n <= |Scenario|
    ensures DrowsyCommands(DrowsyRun(Initial, Scenario[..n]).events) ==
              if n <= 8 then [] else if n <= 36 then [DrowsyOn] else [DrowsyOn, DrowsyOff]
  {
    if n == 0 {
    } else if n <= 5 {
      OpenStreakEndsAlert(Initial, Scenario[..n]);
    } else if n <= 36 {
      ScenarioClosedPrefix(n);
    } else {
      var awake, closed, woken := Scenario[..5], Scenario[5..36], Scenario[36..n];
      assert Scenario[..n] == awake + closed + woken;
      assert closed[3].at - closed[0].at >= SLEEP_T;
      EpisodeAlertsOnceAndClears(Initial, awake, closed, woken);
    }
  }

  /** The scenario cut inside its closed streak: drowsy_on has been sent
      once the streak has lasted three seconds. */
  lemma {:induction false} ScenarioClosedPrefix(n: nat)
    requires 5 < n <= 36
    ensures DrowsyCommands(DrowsyRun(Initial, Scenario[..n]).events) == if n <= 8 then [] else [DrowsyOn]
  {
    var awake, closed := Scenario[..5], Scenario[5..n];
    assert Scenario[..n] == awake + closed;
    OpenStreakEndsAlert(Initial, awake);
    ScenarioStreak(n);
    RunCommandsAppend(Initial, awake, closed);
  }

  /** The closed streak of the scenario on its own, from the awake state. */
  lemma {:induction false} ScenarioStreak(n: nat)
    requires 5 < n <= 36
    ensures DrowsyCommands(DrowsyRun(DrowsyState(None, false), Scenario[5..n]).events) ==
              if n <= 8 then [] else [DrowsyOn]
  {
    var closed := Scenario[5..n];
    assert forall i :: 0 <= i < |closed| ==> closed[i] == Scenario[5 + i];
    assert AllClosed(closed);
    ClosedStreakAlertsOnce(DrowsyState(None, false), closed);
    if n >= 9 {
      assert closed[3].at - closed[0].at >= SLEEP_T;
    } else {
      assert forall i :: 1 <= i < |closed| ==> closed[i].at - closed[0].at < SLEEP_T;
    }
  }

  /** Over the whole scenario exactly one drowsy_on and then exactly one
      drowsy_off are sent, at seconds 8 and 36. */
  lemma {:induction false} DrowsyScenario()
    ensures DrowsyCommands(DrowsyRun(Initial, Scenario).events) == [DrowsyOn, DrowsyOff]
    ensures forall n :: 0 <= n <= 8 ==> DrowsyCommands(DrowsyRun(Initial, Scenario[..n]).events) == []
    ensures forall n :: 9 <= n <= 36 ==> DrowsyCommands(DrowsyRun(Initial, Scenario[..n]).events) == [DrowsyOn]
    ensures forall n :: 37 <= n <= 38 ==> DrowsyCommands(DrowsyRun(Initial, Scenario[..n]).events) == [DrowsyOn, DrowsyOff]
  {
    forall n | 0 <= n <= 38
      ensures DrowsyCommands(DrowsyRun(Initial, Scenario[..n]).events) ==
                if n <= 8 then [] else if n <= 36 then [DrowsyOn] else [DrowsyOn, DrowsyOff]
    {
      ScenarioPrefix(n);
    }
    assert Scenario[..38] == Scenario;
  }
}

=== FILE: hub.dfy ===
/** One iteration of the hub's main loop: the driver frame, if there is
    one, advances the drowsiness evaluator; then the road frame's
    detections, if there is a road frame, advance the sign evaluator. */
module Hub {
  import opened HubTypes
  import opened Drowsiness
  import opened Signs

  /** The two evaluators' states, each owned by its own evaluator. */
  datatype HubState = HubState(drowsy: DrowsyState, signs: SignState)

  const Start: HubState := HubState(Drowsiness.Initial, Signs.Initial)

  /** `driver` is None while no driver frame has been captured yet, and
      likewise `road` for the road camera; a road frame carries the
      detections of the sign detector with the time each was handled. */
  function HubTick(h: HubState, driver: Option<DriverTick>, road: Option<seq<Sighting>>): (r: Step<HubState>)
    // a missing frame skips its evaluator
    ensures driver.None? ==> r.next.drowsy == h.drowsy
    ensures road.None? ==> r.next.signs == h.signs
    ensures driver.None? && road.None? ==> r == Step(h, [])
    // a present frame runs its evaluator
    ensures driver.Some? ==> r.next.drowsy == DrowsyStep(h.drowsy, driver.value.obs, driver.value.at).next
    ensures road.Some? ==> r.next.signs == SignFold(h.signs, road.value).next
    // the driver's events come first, then the road's
    ensures r.events ==
              (if driver.Some? then DrowsyStep(h.drowsy, driver.value.obs, driver.value.at).events else []) +
              (if road.Some? then SignFold(h.signs, road.value).events else [])
    ensures Inv(h.drowsy) ==> Inv(r.next.drowsy)
  {
    var d := match driver
      case None => Step(h.drowsy, [])
      case Some(t) => DrowsyStep(h.drowsy, t.obs, t.at);
    var s := match road
      case None => Step(h.signs, [])
      case Some(xs) => SignFold(h.signs, xs);
    Step(HubState(d.next, s.next), d.events + s.events)
  }

  /** The evaluators do not influence each other: the sign state after a
      tick does not depend on the drowsiness state or on the driver frame,
      and the drowsiness state does not depend on the sign state or on the
      road frame. */
  lemma {:induction false} EvaluatorsIndependent(h: HubState, h': HubState,
                                                 driver: Option<DriverTick>, driver': Option<DriverTick>,
                                                 road: Option<seq<Sighting>>, road': Option<seq<Sighting>>)
    ensures h.signs == h'.signs && road == road' ==>
              HubTick(h, driver, road).next.signs == HubTick(h', driver', road').next.signs
    ensures h.drowsy == h'.drowsy && driver == driver' ==>
              HubTick(h, driver, road).next.drowsy == HubTick(h', driver', road').next.drowsy
  {
  }

  /** The drowsiness commands of a tick are exactly those of its driver
      frame: the sign evaluator never sends drowsy_on or drowsy_off. */
  lemma {:induction false} SignsSendNoDrowsyCommands(s: SignState, xs: seq<Sighting>)
    ensures DrowsyCommands(SignFold(s, xs).events) == []
    decreases |xs|
  {
    if |xs| > 0 {
      var first := SignStep(s, xs[0]);
      var rest := SignFold(first.next, xs[1..]);
      SignsSendNoDrowsyCommands(first.next, xs[1..]);
      DrowsyCommandsAppend(first.events, rest.events);
      var es := first.events;
      if es != [] {
        assert DrowsyCommands(es) == DrowsyCommands(es[1..]);
        if |es| == 2 {
          assert es[1..][1..] == [];
        }
      }
    }
  }

  lemma {:induction false} TickDrowsyCommands(h: HubState, driver: Option<DriverTick>, road: Option<seq<Sighting>>)
    ensures DrowsyCommands(HubTick(h, driver, road).events) ==
              match driver
              case None => []
              case Some(t) => DrowsyCommands(DrowsyStep(h.drowsy, t.obs, t.at).events)
  {
    var d := match driver
      case None => Step(h.drowsy, [])
      case Some(t) => DrowsyStep(h.drowsy, t.obs, t.at);
    var s := match road
      case None => Step(h.signs, [])
      case Some(xs) => SignFold(h.signs, xs);
    DrowsyCommandsAppend(d.events, s.events);
    if road.Some? {
      SignsSendNoDrowsyCommands(h.signs, road.value);
    }
  }

  /** What one iteration of the main loop finds in the two frame slots. */
  datatype Frames = Frames(driver: Option<DriverTick>, road: Option<seq<Sighting>>)

  /** The main loop run over a sequence of iterations, in order. */
  function HubRun(h: HubState, fs: seq<Frames>): (r: Step<HubState>)
    ensures |fs| == 0 ==> r == Step(h, [])
    ensures Inv(h.drowsy) ==> Inv(r.next.drowsy)
    decreases |fs|
  {
    if |fs| == 0 then Step(h, [])
    else
      var first := HubTick(h, fs[0].driver, fs[0].road);
      var rest := HubRun(first.next, fs[1..]);
      Step(rest.next, first.events + rest.events)
  }

  /** The driver frames that were present, in order. */
  function DriverTicks(fs: seq<Frames>): (ts: seq<DriverTick>)
    ensures |ts| <= |fs|
    ensures forall k :: 0 <= k < |fs| && fs[k].driver.None? ==> |ts| < |fs|
    decreases |fs|
  {
    if |fs| == 0 then []
    else (match fs[0].driver case None => [] case Some(t) => [t]) + DriverTicks(fs[1..])
  }

  /** The detections of the road frames that were present, in order. */
  function RoadSightings(fs: seq<Frames>): seq<Sighting>
    decreases |fs|
  {
    if |fs| == 0 then []
    else (match fs[0].road case None => [] case Some(xs) => xs) + RoadSightings(fs[1..])
  }

  /** A run of the hub is a run of the drowsiness evaluator over the driver
      frames that were present, side by side with a fold of the sign
      evaluator over the detections of the road frames that were present;
      its drowsiness commands are exactly those of the drowsiness run. */
  lemma {:induction false} HubRunProjects(h: HubState, fs: seq<Frames>)
    ensures HubRun(h, fs).next.drowsy == DrowsyRun(h.drowsy, DriverTicks(fs)).next
    ensures HubRun(h, fs).next.signs == SignFold(h.signs, RoadSightings(fs)).next
    ensures DrowsyCommands(HubRun(h, fs).events) == DrowsyCommands(DrowsyRun(h.drowsy, DriverTicks(fs)).events)
    decreases |fs|
  {
    if |fs| > 0 {
      var first := HubTick(h, fs[0].driver, fs[0].road);
      var rest := HubRun(first.next, fs[1..]);
      HubRunProjects(first.next, fs[1..]);
      var ds: seq<DriverTick> := match fs[0].driver case None => [] case Some(t) => [t];
      var xs: seq<Sighting> := match fs[0].road case None => [] case Some(ys) => ys;
      assert DriverTicks(fs) == ds + DriverTicks(fs[1..]);
      assert RoadSightings(fs) == xs + RoadSightings(fs[1..]);
      // the driver half
      RunCommandsAppend(h.drowsy, ds, DriverTicks(fs[1..]));
      assert DrowsyRun(h.drowsy, ds).next == first.next.drowsy by {
        if fs[0].driver.Some? {
          assert ds[1..] == [];
        }
      }
      assert DrowsyCommands(DrowsyRun(h.drowsy, ds).events) == DrowsyCommands(first.events) by {
        TickDrowsyCommands(h, fs[0].driver, fs[0].road);
        if fs[0].driver.Some? {
          var step := DrowsyStep(h.drowsy, ds[0].obs, ds[0].at);
          assert ds[1..] == [];
          assert DrowsyRun(h.drowsy, ds).events == step.events + [];
          assert step.events + [] == step.events;
        }
      }
      DrowsyCommandsAppend(first.events, rest.events);
      // the sign half
      FoldAppend(h.signs, xs, RoadSightings(fs[1..]));
    }
  }

  /** Over any run of the hub from the start, drowsy_on and drowsy_off
      strictly alternate, beginning with drowsy_on. */
  lemma {:induction false} HubAlternates(fs: seq<Frames>)
    ensures Alternating(DrowsyCommands(HubRun(Start, fs).events), false)
  {
    HubRunProjects(Start, fs);
    RunAlternates(Drowsiness.Initial, DriverTicks(fs));
  }
}

=== FILE: hub_types.dfy ===
/** Values shared by the two evaluators of the driver hub: time, optional
    values, the actuator command vocabulary and the events a step emits. */
module HubTypes {

  /** Seconds since the epoch, as read from the wall clock. */
  type Time = real

  datatype Option<T> = None | Some(value: T)

  /** The six commands the vehicle controller understands; each is sent as
      a request to the path "/<name>" on the controller. */
  datatype Command =
    | DrowsyOn
    | DrowsyOff
    | SignStop
    | SignSpeed30
    | SignSpeed50
    | SignSpeed80
  {
    /** The wire name of the command. */
    function Name(): string {
      match this
      case DrowsyOn => "drowsy_on"
      case DrowsyOff => "drowsy_off"
      case SignStop => "sign_stop"
      case SignSpeed30 => "sign_speed30"
      case SignSpeed50 => "sign_speed50"
      case SignSpeed80 => "sign_speed80"
    }

    /** Commands raised by the traffic-sign evaluator. */
    predicate IsSign() {
      !DrowsyOn? && !DrowsyOff?
    }
  }

  /** The request path a command is sent to. */
  function RequestPath(c: Command): (p: string)
    ensures |p| == |c.Name()| + 1
    ensures p[0] == '/' && p[1..] == c.Name()
  {
    "/" + c.Name()
  }

  /** Distinct commands reach distinct controller paths, so the controller
      can tell every command apart. */
  lemma {:induction false} RequestPathInjective(a: Command, b: Command)
    ensures RequestPath(a) == RequestPath(b) <==> a == b
  {
  }

  /** What a step of an evaluator asks the outside world to do: speak a
      text aloud, or send a command to the vehicle controller. Speech runs
      on a daemon thread of its own (lines 143 and 165), while a command is
      sent on the evaluator's own loop and blocks it until the request
      completes or a connect or read wait exceeds 0.6 seconds (line 38), so
      the whole call can take longer than 0.6 seconds. That wait is one
      reason the next detection can read a later clock (line 163). The
      model keeps only the order of issue. */
  datatype Event = Announce(text: string) | Dispatch(cmd: Command)

  /** The outcome of one step: the next state and the events it emits. */
  datatype Step<S> = Step(next: S, events: seq<Event>)
}

=== FILE: signs.dfy ===
/** The traffic-sign evaluator: every detected sign label is announced by
    voice, and its command sent, unless it repeats the last announced label
    within SPEAK_DELAY seconds. */
module Signs {
  import opened HubTypes
  import Text

  /** Seconds within which a repeated label is not announced again. */
  const SPEAK_DELAY: real := 3.0

  /** The last announced label and when it was announced. */
  datatype SignState = SignState(lastLabel: string, lastTime: Time)

  const Initial: SignState := SignState("", 0.0)

  /** One detection of the sign detector and the time it was handled at. */
  datatype Sighting = Sighting(name: string, at: Time)

  // ---------------------------------------------------------------------
  // Label to command

  ghost predicate Mentions(lbl: string, keyword: string) {
    Text.Occurs(Text.Lower(lbl), keyword)
  }

  /** The command for an announced label: the first keyword of "stop",
      "30", "50", "80" that occurs in the lower-cased label decides it. */
  function CommandFor(lbl: string): (r: Option<Command>)
    ensures r == Some(SignStop) <==> Mentions(lbl, "stop")
    ensures r == Some(SignSpeed30) <==> !Mentions(lbl, "stop") && Mentions(lbl, "30")
    ensures r == Some(SignSpeed50) <==> !Mentions(lbl, "stop") && !Mentions(lbl, "30") && Mentions(lbl, "50")
    ensures r == Some(SignSpeed80) <==>
              !Mentions(lbl, "stop") && !Mentions(lbl, "30") && !Mentions(lbl, "50") && Mentions(lbl, "80")
    ensures r.None? <==>
              !Mentions(lbl, "stop") && !Mentions(lbl, "30") && !Mentions(lbl, "50") && !Mentions(lbl, "80")
    ensures r.Some? ==> r.value.IsSign()
  {
    var l := Text.Lower(lbl);
    if Text.Contains(l, "stop") then Some(SignStop)
    else if Text.Contains(l, "30") then Some(SignSpeed30)
    else if Text.Contains(l, "50") then Some(SignSpeed50)
    else if Text.Contains(l, "80") then Some(SignSpeed80)
    else None
  }

  /** The mapping ignores the case of the label. */
  lemma {:induction false} CommandForIgnoresCase(a: string, b: string)
    requires Text.SameIgnoringCase(a, b)
    ensures CommandFor(a) == CommandFor(b)
  {
    Text.LowerOfSameIgnoringCase(a, b);
  }

  /** Worked examples of the mapping. An upper-case stop label maps to
      sign_stop. */
  lemma {:induction false} UpperCaseStopExample()
    ensures CommandFor("STOP_SIGN") == Some(SignStop)
  {
    var l := Text.Lower("STOP_SIGN");
    assert l[0] == 's' && l[1] == 't' && l[2] == 'o' && l[3] == 'p';
    assert l[..4] == "stop";
    assert Text.OccursAt(l, "stop", 0);
  }

  /** "stop" is tested first, so a stop label that also holds a digit
      pair maps to sign_stop. */
  lemma {:induction false} StopBeforeDigitsExample()
    ensures CommandFor("stop25") == Some(SignStop)
    ensures CommandFor("stop30") == Some(SignStop)
  {
    var l25, l30 := Text.Lower("stop25"), Text.Lower("stop30");
    assert l25[..4] == "stop" && l30[..4] == "stop";
    assert Text.OccursAt(l25, "stop", 0) && Text.OccursAt(l30, "stop", 0);
  }

  lemma {:induction false} SpeedSignExample()
    ensures CommandFor("speed30") == Some(SignSpeed30)
  {
    var l := Text.Lower("speed30");
    assert l == "speed30";
    assert Text.OccursAt(l, "30", 5);
    forall i
      ensures !Text.OccursAt(l, "stop", i)
    {
      if 0 <= i <= |l| - 4 {
        assert l[i..i + 4][1] == l[i + 1] != 't';
      }
    }
  }

  /** No keyword begins with a letter of "yield". */
  lemma {:induction false} YieldHasNoKeyword(k: string)
    requires k == "stop" || k == "30" || k == "50" || k == "80"
    ensures !Mentions("yield", k)
  {
    var l := Text.Lower("yield");
    assert l == "yield";
    forall i
      ensures !Text.OccursAt(l, k, i)
    {
      if 0 <= i && i + |k| <= |l| {
        assert l[i..i + |k|][0] == l[i] != k[0];
      }
    }
  }

  /** A label without any keyword is still announced but sends nothing. */
  lemma {:induction false} UnknownSignExample()
    ensures CommandFor("yield") == None
    ensures AnnouncementEvents("yield") == [Announce("yield")]
  {
    YieldHasNoKeyword("stop");
    YieldHasNoKeyword("30");
    YieldHasNoKeyword("50");
    YieldHasNoKeyword("80");
  }

  /** The events of announcing a label: speak it, then send its command
      if it has one. */
  function AnnouncementEvents(lbl: string): (es: seq<Event>)
    ensures 1 <= |es| <= 2 && es[0] == Announce(lbl)
    ensures |es| == 2 <==> CommandFor(lbl).Some?
    ensures |es| == 2 ==> es[1] == Dispatch(CommandFor(lbl).value) && es[1].cmd.IsSign()
  {
    [Announce(lbl)] + match CommandFor(lbl) { case Some(c) => [Dispatch(c)] case None => [] }
  }

  // ---------------------------------------------------------------------
  // Debouncing

  /** The debounce rule: a label is announced when it differs from the last
      announced one, or when more than SPEAK_DELAY has passed since then. */
  predicate Announces(s: SignState, x: Sighting) {
    x.name != s.lastLabel || x.at - s.lastTime > SPEAK_DELAY
  }

  /** Handles one detection. */
  function SignStep(s: SignState, x: Sighting): (r: Step<SignState>)
    // announced: the sighting becomes the last announcement
    ensures Announces(s, x) ==> r.next == SignState(x.name, x.at) && r.events == AnnouncementEvents(x.name)
    // suppressed only for the same label within SPEAK_DELAY, and then nothing changes
    ensures r.events == [] <==> x.name == s.lastLabel && x.at - s.lastTime <= SPEAK_DELAY
    ensures r.events == [] ==> r.next == s
  {
    if Announces(s, x) then Step(SignState(x.name, x.at), AnnouncementEvents(x.name))
    else Step(s, [])
  }

  /** Handles the detections in order, each against the state the previous
      ones left. */
  function SignFold(s: SignState, xs: seq<Sighting>): (r: Step<SignState>)
    ensures |xs| == 0 ==> r == Step(s, [])
    decreases |xs|
  {
    if |xs| == 0 then Step(s, [])
    else
      var first := SignStep(s, xs[0]);
      var rest := SignFold(first.next, xs[1..]);
      Step(rest.next, first.events + rest.events)
  }

  /** All detections of one frame, handled at the same time `now`: the
      special case of `SignFold` in which every detection reads the same
      clock. The main loop reads the clock once per detection (line 163),
      so `Hub` folds sightings that each carry their own time instead. */
  function SignTick(s: SignState, labels: seq<string>, now: Time): (r: Step<SignState>)
    ensures |labels| > 0 ==> r.next.lastLabel == labels[|labels| - 1]
    ensures |labels| == 0 ==> r == Step(s, [])
  {
    var xs := seq(|labels|, i requires 0 <= i < |labels| => Sighting(labels[i], now));
    if |labels| > 0 then
      FoldRemembersLast(s, xs);
      SignFold(s, xs)
    else
      SignFold(s, xs)
  }

  /** After any non-empty run of detections, the state holds the label of
      the last detection, handled no more than SPEAK_DELAY after the state's
      time: a suppressed detection repeats the remembered label. */
  lemma {:induction false} FoldRemembersLast(s: SignState, xs: seq<Sighting>)
    requires |xs| > 0
    ensures SignFold(s, xs).next.lastLabel == xs[|xs| - 1].name
    ensures xs[|xs| - 1].at - SignFold(s, xs).next.lastTime <= SPEAK_DELAY
  {
    var n := |xs| - 1;
    assert xs == xs[..n] + [xs[n]];
    FoldSnoc(s, xs[..n], xs[n]);
  }

  /** A detection whose label differs from the one handled just before it
      is always announced, however little time has passed. */
  lemma {:induction false} LabelChangeIsAnnounced(s: SignState, xs: seq<Sighting>, i: nat)
    requires 0 < i < |xs| && xs[i].name != xs[i - 1].name
    ensures Announces(SignFold(s, xs[..i]).next, xs[i])
  {
    FoldRemembersLast(s, xs[..i]);
  }

  /** Within one frame (same handling time), a detection that repeats the
      label just before it is never announced. */
  lemma {:induction false} SameFrameRepeatIsSuppressed(s: SignState, xs: seq<Sighting>, i: nat)
    requires 0 < i < |xs| && xs[i].name == xs[i - 1].name && xs[i].at == xs[i - 1].at
    ensures !Announces(SignFold(s, xs[..i]).next, xs[i])
  {
    FoldRemembersLast(s, xs[..i]);
  }

  /** The sightings a fold announces, in order. */
  ghost function AnnouncementLog(s: SignState, xs: seq<Sighting>): (log: seq<Sighting>)
    ensures |log| <= |xs|
    decreases |xs|
  {
    if |xs| == 0 then []
    else if Announces(s, xs[0]) then [xs[0]] + AnnouncementLog(SignState(xs[0].name, xs[0].at), xs[1..])
    else AnnouncementLog(s, xs[1..])
  }

  /** The events of announcing every sighting of a log, in order. */
  function EventsOf(log: seq<Sighting>): seq<Event>
    decreases |log|
  {
    if |log| == 0 then [] else AnnouncementEvents(log[0].name) + EventsOf(log[1..])
  }

  function StateAfter(s: SignState, log: seq<Sighting>): SignState {
    if |log| == 0 then s else SignState(log[|log| - 1].name, log[|log| - 1].at)
  }

  /** A fold emits exactly the announcements of its log, in order, and
      leaves the last announcement as its state. */
  lemma {:induction false} FoldFollowsLog(s: SignState, xs: seq<Sighting>)
    ensures SignFold(s, xs).events == EventsOf(AnnouncementLog(s, xs))
    ensures SignFold(s, xs).next == StateAfter(s, AnnouncementLog(s, xs))
    decreases |xs|
  {
    if |xs| > 0 {
      var first := SignStep(s, xs[0]);
      FoldFollowsLog(first.next, xs[1..]);
      var tail := AnnouncementLog(first.next, xs[1..]);
      if Announces(s, xs[0]) {
        var log := [xs[0]] + tail;
        assert log[0] == xs[0] && log[1..] == tail;
      } else {
        assert first.events == [];
        assert SignFold(s, xs).events == [] + SignFold(s, xs[1..]).events;
      }
    }
  }

  /** Announcements are spaced: two consecutive announcements of the same
      label are more than SPEAK_DELAY apart, and the first one repeats the
      label of the starting state only after more than SPEAK_DELAY. */
  lemma {:induction false} RepeatsAreSpaced(s: SignState, xs: seq<Sighting>)
    ensures var log := AnnouncementLog(s, xs);
            |log| > 0 ==> Announces(s, log[0])
    ensures var log := AnnouncementLog(s, xs);
            forall k :: 0 < k < |log| ==> Announces(SignState(log[k - 1].name, log[k - 1].at), log[k])
    decreases |xs|
  {
    if |xs| > 0 {
      if Announces(s, xs[0]) {
        var t := SignState(xs[0].name, xs[0].at);
        RepeatsAreSpaced(t, xs[1..]);
        var tail := AnnouncementLog(t, xs[1..]);
        var log := [xs[0]] + tail;
        forall k | 0 < k < |tail|
          ensures log[k] == tail[k - 1] && log[k + 1] == tail[k]
        {
        }
      } else {
        RepeatsAreSpaced(s, xs[1..]);
      }
    }
  }

  /** Folding two runs of sightings one after the other is folding their
      concatenation. */
  lemma {:induction false} FoldAppend(s: SignState, a: seq<Sighting>, b: seq<Sighting>)
    ensures var ra := SignFold(s, a);
            var rb := SignFold(ra.next, b);
            SignFold(s, a + b) == Step(rb.next, ra.events + rb.events)
    decreases |a|
  {
    if |a| == 0 {
      assert a + b == b;
    } else {
      var first := SignStep(s, a[0]);
      assert (a + b)[0] == a[0] && (a + b)[1..] == a[1..] + b;
      FoldAppend(first.next, a[1..], b);
      var ra := SignFold(first.next, a[1..]);
      var rb := SignFold(ra.next, b);
      assert first.events + (ra.events + rb.events) == (first.events + ra.events) + rb.events;
    }
  }

  /** Folding one more sighting is one more step. */
  lemma {:induction false} FoldSnoc(s: SignState, xs: seq<Sighting>, x: Sighting)
    ensures var before := SignFold(s, xs);
            SignFold(s, xs + [x]) == Step(SignStep(before.next, x).next, before.events + SignStep(before.next, x).events)
    decreases |xs|
  {
    if |xs| == 0 {
      assert xs + [x] == [x];
      assert [x][1..] == [];
    } else {
      var first := SignStep(s, xs[0]);
      assert (xs + [x])[0] == xs[0] && (xs + [x])[1..] == xs[1..] + [x];
      FoldSnoc(first.next, xs[1..], x);
    }
  }

  /** The same label seen once a second for ten seconds, from the start
      state: it is announced at seconds 0, 4 and 8 only, since a repeat
      needs strictly more than SPEAK_DELAY to pass. */
  lemma {:induction false} RepeatedLabelScenario(lbl: string)
    requires lbl != ""
    ensures var xs := seq(11, i requires 0 <= i < 11 => Sighting(lbl, i as real));
            AnnouncementLog(Initial, xs) == [Sighting(lbl, 0.0), Sighting(lbl, 4.0), Sighting(lbl, 8.0)]
  {
    var xs := seq(11, i requires 0 <= i < 11 => Sighting(lbl, i as real));
    var s0, s4, s8 := SignState(lbl, 0.0), SignState(lbl, 4.0), SignState(lbl, 8.0);
    assert xs[10..][1..] == [];
    assert AnnouncementLog(s8, xs[10..]) == [];
    assert AnnouncementLog(s8, xs[9..]) == [];
    assert AnnouncementLog(s4, xs[8..]) == [xs[8]];
    assert AnnouncementLog(s4, xs[7..]) == [xs[8]];
    assert AnnouncementLog(s4, xs[6..]) == [xs[8]];
    assert AnnouncementLog(s4, xs[5..]) == [xs[8]];
    assert AnnouncementLog(s0, xs[4..]) == [xs[4], xs[8]];
    assert AnnouncementLog(s0, xs[3..]) == [xs[4], xs[8]];
    assert AnnouncementLog(s0, xs[2..]) == [xs[4], xs[8]];
    assert AnnouncementLog(s0, xs[1..]) == [xs[4], xs[8]];
    assert AnnouncementLog(Initial, xs) == [xs[0], xs[4], xs[8]];
  }
}

=== FILE: text.dfy ===
/** The string operations the sign evaluator uses: ASCII lower-casing and
    substring search. */
module Text {

  predicate IsUpper(c: char) {
    'A' <= c <= 'Z'
  }

  function LowerChar(c: char): (d: char)
    ensures !IsUpper(d)
    ensures IsUpper(c) ==> d as int == c as int + 32
    ensures !IsUpper(c) ==> d == c
  {
    if IsUpper(c) then (c as int - 'A' as int + 'a' as int) as char else c
  }

  /** Lower-cases every ASCII capital letter and leaves every other
      character as it is. */
  function Lower(s: string): (r: string)
    ensures |r| == |s|
    ensures forall i :: 0 <= i < |s| ==> r[i] == LowerChar(s[i])
    decreases |s|
  {
    if |s| == 0 then [] else [LowerChar(s[0])] + Lower(s[1..])
  }

  /** Two strings that differ only in the case of their letters. */
  ghost predicate SameIgnoringCase(a: string, b: string) {
    |a| == |b| && forall i :: 0 <= i < |a| ==> LowerChar(a[i]) == LowerChar(b[i])
  }

  lemma {:induction false} LowerOfSameIgnoringCase(a: string, b: string)
    requires SameIgnoringCase(a, b)
    ensures Lower(a) == Lower(b)
  {
  }

  /** `pat` occurs in `s` starting at index `i`. */
  ghost predicate OccursAt(s: string, pat: string, i: int) {
    0 <= i && i + |pat| <= |s| && s[i..i + |pat|] == pat
  }

  ghost predicate Occurs(s: string, pat: string) {
    exists i :: OccursAt(s, pat, i)
  }

  lemma {:induction false} OccursShift(s: string, pat: string)
    requires |s| > 0
    ensures forall j :: 0 <= j ==> (OccursAt(s[1..], pat, j) <==> OccursAt(s, pat, j + 1))
  {
  }

  /** Substring test, Python's `pat in s`, by a left-to-right scan. */
  function Contains(s: string, pat: string): (r: bool)
    ensures r <==> Occurs(s, pat)
    decreases |s|
  {
    if |s| < |pat| then
      false
    else if s[..|pat|] == pat then
      assert OccursAt(s, pat, 0);
      true
    else
      OccursShift(s, pat);
      var r := Contains(s[1..], pat);
      assert r ==> Occurs(s, pat) by {
        if r {
          var j :| OccursAt(s[1..], pat, j);
          assert OccursAt(s, pat, j + 1);
        }
      }
      assert Occurs(s, pat) ==> r by {
        if Occurs(s, pat) {
          var i :| OccursAt(s, pat, i);
          assert i != 0;
          assert OccursAt(s[1..], pat, i - 1);
        }
      }
      r
  }
}
